=== FILE: README.md ===
# URL shortener core, modelled in Dafny

This project models the core of a small URL-shortening service. A client
submits a long URL and gets back a six-character base62 short code plus a
short URL. Fetching the short code returns the stored mapping. The model
covers the short-code generator, the `Url` entity and its construction-time
validation, the store contract (`create`, `findByShortCode`), the shorten
operation with its bounded collision-retry loop, the get operation, the
response view, and the error taxonomy.

Everything is a pure function over immutable datatypes. The store is a
`map<string, Url>` keyed by short code. Each operation returns an outcome
that records the calls it made: the codes passed to `findByShortCode` and
the entities passed to `create`, each in call order. Exceptions are `Err`
values of a `Result`.

Modules, one per source component:

- `Errors` (errors.dfy): the `ValidationError` / `NotFoundError` /
  `DatabaseError` variants with their status codes, plus `Option`/`Result`.
- `Text` (text.dfy): JavaScript's `trim` and the blank test built on it.
- `UrlEntity` (url_entity.dfy): `Url`, `Url.create` and `validate`.
- `ShortCode` (short_code.dfy): `generateShortCode` and the base62 alphabet.
- `UrlRepository` (url_repository.dfy): the `IUrlRepository` contract over a map.
- `ShortenUrlResponse` (response_dto.dfy): `toShortenUrlResponseDto`.
- `GetUrl` (get_url.dfy): `GetUrlUseCase.execute`.
- `ShortenUrl` (shorten_url.dfy): `ShortenUrlUseCase.execute`.
- `UrlService` (url_service.dfy): properties that join the two operations.

Things that are outside the code become parameters:

- zod's `.url()` check is a predicate `isUrl: string -> bool`.
- `Math.floor(Math.random() * 62)` is a stream `rng` of indices in [0, 62).
  Attempt k of the retry loop consumes draws 6k to 6k+5, so the stream must
  hold 60 draws.
- `new Date()` is `now`.
- The identifier and creation time the store assigns are `stamp`.
- `process.env.BASE_URL` is `baseUrl: Option<string>`.
- A failing store is described by `readFault` and `writeFault`: the error
  every read or every write raises.

Two places where the model is written differently from the source text:

- The alphabet `Characters` is the concatenation of three constants:
  lower-case letters, upper-case letters and digits. The value and the order
  are those of the source's single literal. The split lets the verifier index
  into it.
- The shorten loop takes the ten candidates as a sequence computed up front
  from the draw stream. Generation is pure, so the codes looked up are the
  ones the source generates one pass at a time.

The shorten operation keeps the source's exact check order. The attempt
counter is compared with `maxAttempts` before the lookup's answer is used.
So the tenth lookup always throws, even when its candidate is free: at most
nine candidates can ever win. `ShortenUrl.NineCollisionsExhaust` and
`ShortenUrl.NineCollisionsFail` state this, and `ShortenUrl.SucceedsIff`
states the exact success condition.

## Model

| member | source | states |
|---|---|---|
| Errors.StatusCode | src/application/errors/validation-error.ts:6-10 | ValidationError answers 400 (as here), NotFoundError 404 (not-found-error.ts, lines 7-9 of the same directory), DatabaseError 500 (database-error.ts, lines 7-11), and each status identifies exactly one kind |
| Text.TrimStart | src/domain/entities/url.entity.ts:23-26 | the leading-trim result is a suffix of the input, only whitespace was dropped, and it does not start with whitespace |
| Text.TrimEnd | src/domain/entities/url.entity.ts:23-26 | the trailing-trim result is a prefix of the input, only whitespace was dropped, and it does not end with whitespace |
| Text.BlankIffAllWhitespace | src/domain/entities/url.entity.ts:22-29 | `trim()` returns the empty string exactly when every character is whitespace, the empty string included |
| Text.Trim | src/domain/entities/url.entity.ts:23-26 | `trim()` returns the slice of the input between a whitespace-only prefix and a whitespace-only suffix, and that slice is empty or begins and ends with a non-whitespace character |
| Text.IsBlank | src/domain/entities/url.entity.ts:23-26 | `!s?.trim()` holds exactly when every character of s is whitespace, the empty string included |
| UrlEntity.Validate | src/domain/entities/url.entity.ts:22-29 | passes exactly when both fields hold a non-whitespace character; a blank short code reports 'Short code is required' first, otherwise a blank long URL reports 'Long URL is required' |
| UrlEntity.Create | src/domain/entities/url.entity.ts:4-20 | succeeds exactly when both fields are non-blank; the entity keeps all four fields as given (untrimmed) and is valid; otherwise the first validation error |
| UrlEntity.CreateIgnoresIdAndTime | src/domain/entities/url.entity.ts:13-29 | the identifier and the timestamp never affect the verdict, so the empty placeholder id is accepted |
| UrlEntity.CreateRoundTrip | src/domain/entities/url.entity.ts:13-19 | a valid entity is rebuilt unchanged from its own fields |
| ShortCode.RunsAscend | src/application/utils/generate-short-code.ts:6-7 | the alphabet's three runs are a-z, A-Z and 0-9 in ascending order |
| ShortCode.AlphabetWellFormed | src/application/utils/generate-short-code.ts:6-7 | the alphabet has 62 base62 characters and the character at index i sits at position i |
| ShortCode.AlphabetCoversBase62 | src/application/utils/generate-short-code.ts:6-7 | every base62 character appears in the alphabet |
| ShortCode.AlphabetDistinct | src/application/utils/generate-short-code.ts:6-11 | two draws select the same character exactly when they are equal |
| ShortCode.Generate | src/application/utils/generate-short-code.ts:5-16 | the code has exactly the requested length (empty for length 0 or less), its i-th character is `characters[draws[i]]`, and it is base62 |
| ShortCode.GenerateDefault | src/application/utils/generate-short-code.ts:5-13 | without a length argument the code is 6 base62 characters, and its i-th character is `characters[draws[i]]` |
| ShortCode.Decode | src/application/utils/generate-short-code.ts:10-13 | reading a base62 string back gives draws that spell it |
| ShortCode.DecodeGenerate | src/application/utils/generate-short-code.ts:10-13 | a generated code determines the draws it was built from |
| ShortCode.GenerateDecode | src/application/utils/generate-short-code.ts:10-13 | every base62 string of a length is a possible output for that length |
| ShortCode.GenerateInjective | src/application/utils/generate-short-code.ts:10-13 | two runs of equal length give equal codes exactly when their draws agree |
| ShortCode.Base62HasNoSlash | src/application/utils/generate-short-code.ts:3 | a base62 code holds no '/', so it is one URL path segment |
| UrlRepository.FindByShortCode | src/domain/repositories/url.repository.ts:5 | returns the row stored under the code, `None` when absent, or the store's read error unchanged |
| UrlRepository.Create | src/domain/repositories/url.repository.ts:4 | inserts under the short code with the store-assigned id and time and returns the stored row; a write error or an existing short code fails and leaves the table alone |
| UrlRepository.FindAfterCreate | src/domain/repositories/url.repository.ts:3-6 | after a create, the new code reads back the stored row and every other code reads as before |
| UrlRepository.InsertPreservesConsistency | src/domain/repositories/url.repository.ts:3-6 | filing a valid entity under its own code keeps every row keyed by its short code and valid |
| ShortenUrlResponse.BaseUrl | src/application/dtos/url/shorten-url-response.dto.ts:10 | the configured base URL when it is set and non-empty, otherwise 'http://localhost:3000'; never empty |
| ShortenUrlResponse.ToResponse | src/application/dtos/url/shorten-url-response.dto.ts:9-17 | the view copies shortCode and longUrl from the entity and sets shortUrl to `<base>/<shortCode>` |
| ShortenUrlResponse.LastSegment | src/application/dtos/url/shorten-url-response.dto.ts:14 | the text after the last '/' is a suffix without '/' and is preceded by '/' |
| ShortenUrlResponse.ShortUrlShape | src/application/dtos/url/shorten-url-response.dto.ts:14 | shortUrl starts with the base URL, then '/', and ends with the short code |
| ShortenUrlResponse.ShortUrlRoundTrip | src/application/dtos/url/shorten-url-response.dto.ts:14 | for a code without '/', the last path segment of the short URL is the short code again |
| GetUrl.NotFoundMessage | src/application/use-cases/get-url/get-url.use-case.ts:12 | the message is "Short code '", then the code, then "' not found" |
| GetUrl.NotFoundMessageRoundTrip | src/application/use-cases/get-url/get-url.use-case.ts:12 | the queried code is recovered from the not-found message, so distinct codes give distinct messages |
| GetUrl.Execute | src/application/use-cases/get-url/get-url.use-case.ts:8-16 | exactly one lookup, with the given code; a read error propagates unchanged, a missing code is a NotFoundError with the exact message, and a found entity is returned unchanged |
| GetUrl.FoundEntityMatchesCode | src/application/use-cases/get-url/get-url.use-case.ts:8-15 | in a consistent store the returned entity carries the queried code and is valid |
| ShortenUrl.Candidate | src/application/use-cases/shorten-url/shorten-url.use-case.ts:36 | every candidate is generated with length 6 and is base62 |
| ShortenUrl.Candidates | src/application/use-cases/shorten-url/shorten-url.use-case.ts:35-36 | the candidates of the ten possible attempts, in attempt order |
| ShortenUrl.Allocate | src/application/use-cases/shorten-url/shorten-url.use-case.ts:35-45 | one lookup per pass, on consecutive candidates; every lookup but the last collided; success exactly when the last candidate is free and fewer than ten passes were made; otherwise the read error, or the exhaustion error after the tenth lookup |
| ShortenUrl.Execute | src/application/use-cases/shorten-url/shorten-url.use-case.ts:18-54 | an invalid URL fails before any store call; at most ten lookups on the candidates in order; create at most once, with ('', winning code, long URL, now); on success the store gains exactly that row and the result is the view of the row create returned; on failure the store is unchanged |
| ShortenUrl.Persist | src/application/use-cases/shorten-url/shorten-url.use-case.ts:47-53 | the entity is built from the winning code and the validated long URL; an invalid entity fails with 'Short code is required' for a blank code, otherwise 'Long URL is required', and create is not called; otherwise success exactly when create accepts it, and the result is the view of the stored row |
| ShortenUrl.CollisionRetries | src/application/use-cases/shorten-url/shorten-url.use-case.ts:35-45 | a pass whose candidate is taken, before the last attempt, records that lookup and continues with the next candidate, keeping the later passes' result |
| ShortenUrl.FreeCandidateSettles | src/application/use-cases/shorten-url/shorten-url.use-case.ts:35-45 | a pass whose candidate is free, before the last attempt, ends the loop with that candidate after its single lookup |
| ShortenUrl.SettlesOnFirstFree | src/application/use-cases/shorten-url/shorten-url.use-case.ts:35-45 | from any pass on, the loop returns the first free candidate before the last attempt and looks up exactly the candidates up to it |
| ShortenUrl.ExhaustsFrom | src/application/use-cases/shorten-url/shorten-url.use-case.ts:38-44 | from any pass on, if every candidate before the last attempt collides, the loop throws the exhaustion error after looking up every remaining candidate |
| ShortenUrl.FirstFreeCandidateWins | src/application/use-cases/shorten-url/shorten-url.use-case.ts:35-45 | the first free candidate at position 1..9 wins, after exactly that many lookups |
| ShortenUrl.NineCollisionsExhaust | src/application/use-cases/shorten-url/shorten-url.use-case.ts:38-44 | if the first nine candidates collide, the loop fails after exactly ten lookups, whether or not the tenth is free |
| ShortenUrl.CandidateNotBlank | src/application/use-cases/shorten-url/shorten-url.use-case.ts:36 | a generated candidate always passes the entity's short-code check |
| ShortenUrl.InvalidUrlTouchesNothing | src/application/use-cases/shorten-url/shorten-url.use-case.ts:20-25 | an invalid URL gives ValidationError('Must be a valid URL') with no lookup, no create and the store unchanged |
| ShortenUrl.ReadFaultPropagates | src/application/use-cases/shorten-url/shorten-url.use-case.ts:37 | a store read error is thrown unchanged at the first lookup, and create is never called |
| ShortenUrl.FirstFreeCandidateIsStored | src/application/use-cases/shorten-url/shorten-url.use-case.ts:35-53 | with a working store, the first free candidate w (w < 9) is used: exactly w+1 lookups, one create with ('', code, long URL, now), and the response of the stored row |
| ShortenUrl.NineCollisionsFail | src/application/use-cases/shorten-url/shorten-url.use-case.ts:32-45 | if the first nine candidates collide, the result is 'Failed to generate unique short code. Please try again.' after ten lookups, with no create and the store unchanged |
| ShortenUrl.SuccessNeedsFreeCandidate | src/application/use-cases/shorten-url/shorten-url.use-case.ts:18-53 | a successful shortening implies the URL passed both checks, the store reads and writes, and one of the first nine candidates was free |
| ShortenUrl.FreeCandidateSucceeds | src/application/use-cases/shorten-url/shorten-url.use-case.ts:18-53 | when the URL passes both checks, the store reads and writes and one of the first nine candidates is free, shortening succeeds |
| ShortenUrl.SucceedsIff | src/application/use-cases/shorten-url/shorten-url.use-case.ts:18-53 | shortening succeeds exactly when the URL passes the check and is non-blank, the store reads and writes, and one of the first nine candidates is free |
| ShortenUrl.PersistPreservesConsistency | src/application/use-cases/shorten-url/shorten-url.use-case.ts:47-51 | the steps after the loop keep every row keyed by its short code and holding a valid entity |
| ShortenUrl.ExecutePreservesConsistency | src/application/use-cases/shorten-url/shorten-url.use-case.ts:17-53 | shortening, whatever its outcome, keeps every row keyed by its short code and holding a valid entity |
| UrlService.ShortenThenGet | src/application/use-cases/shorten-url/shorten-url.use-case.ts:48-53 | fetching the returned short code right after shortening yields an entity with the submitted long URL and the returned short code |
| UrlService.ShortUrlResolves | src/application/dtos/url/shorten-url-response.dto.ts:14 | the returned short URL's last segment is the returned code, and fetching it yields the submitted long URL |
| UrlService.ShortenLeavesOtherCodes | src/application/use-cases/shorten-url/shorten-url.use-case.ts:50-51 | shortening changes the fetch result of no code except the one it returns, and a failed shortening changes none |

## Left out

- The HTTP layer: routes, controllers, redirects, health check, dependency wiring and server start-up. It is framework glue around the two operations.
- The mapping of errors to HTTP responses in the error middleware and exception filter. It depends on `NODE_ENV` and stack traces; the model keeps only each error's message and status code.
- The concrete Prisma repository and the Prisma client singleton: an ORM and process lifecycle. They are replaced by a map-backed store. From the concrete store the model keeps two things: a write under an existing short code fails with DatabaseError('Failed to create URL'), and the store assigns the row's id and creation time.
- The concrete store's read/write error messages other than that one. A failing store is modelled as raising one given error on every read, or on every write.
- zod's URL grammar: `isUrl` is a parameter. The model takes zod's message 'Must be a valid URL'. It does not model the fallback 'Invalid URL data', because zod never produces an empty message for this schema.
- A missing or non-string `longUrl`. Both controllers pass the parsed JSON body to `execute` unchecked. For such a body, zod's `z.string()` fails with its type message ('Required', 'Expected string, received …'), and that message becomes the ValidationError's message. The model's input is always a string, so it keeps only the URL check's message.
- Concurrent shorten calls that race on the same candidate: the model is sequential.
- Floating-point randomness: `Math.random` and `Math.floor` are replaced by the index stream.
- `new Date()` and real time: the timestamp is an opaque parameter.
- `null`/`undefined` fields in `Url.create`: the optional chaining `?.trim()` only matters for values the TypeScript types exclude.
- The error classes' default messages, `Object.setPrototypeOf`, `captureStackTrace` and DatabaseError's stack copying: JavaScript error-object plumbing.
- Non-integer lengths for `generateShortCode`: the length is an integer in the model.
- UTF-16 code units: strings are sequences of Unicode characters, and `trim`'s whitespace set is listed by code point.

=== FILE: errors.dfy ===
/** The application's error taxonomy and the Option/Result wrappers the
    operations return instead of throwing.

    Each error kind carries its message and fixes the HTTP status the
    boundary answers with. */
module Errors {

  /** The closed set of application errors: ValidationError (400),
      NotFoundError (404) and DatabaseError (500). */
  datatype AppError =
    | Validation(message: string)
    | NotFound(message: string)
    | Database(message: string)

  /** The status code each error class passes to its base constructor. */
  function StatusCode(e: AppError): (code: int)
    ensures 400 <= code < 600
    ensures code == 400 <==> e.Validation?
    ensures code == 404 <==> e.NotFound?
    ensures code == 500 <==> e.Database?
  {
    match e
    case Validation(_) => 400
    case NotFound(_) => 404
    case Database(_) => 500
  }

  /** A value that may be absent (TypeScript's `T | null`). */
  datatype Option<+T> = None | Some(value: T)

  /** Either a value or the application error that was thrown instead. */
  datatype Result<+T> = Ok(value: T) | Err(error: AppError)
}

=== FILE: get_url.dfy ===
/** `GetUrlUseCase.execute`: resolves a short code to its stored entity. */
module GetUrl {
  import opened Errors
  import opened UrlEntity
  import opened UrlRepository

  /** The operation's result together with the short codes it passed to
      `findByShortCode`, in call order. The operation returns no store: it
      has no way to change one. */
  datatype GetOutcome = GetOutcome(result: Result<Url>, lookups: seq<string>)

  const NotFoundPrefix := "Short code '"
  const NotFoundSuffix := "' not found"

  /** The NotFoundError message for a short code. */
  function NotFoundMessage(code: string): (msg: string)
    ensures |msg| == |NotFoundPrefix| + |code| + |NotFoundSuffix|
    ensures msg[..|NotFoundPrefix|] == NotFoundPrefix
    ensures msg[|NotFoundPrefix|..|msg| - |NotFoundSuffix|] == code
    ensures msg[|msg| - |NotFoundSuffix|..] == NotFoundSuffix
  {
    NotFoundPrefix + code + NotFoundSuffix
  }

  /** Reads the short code back out of a not-found message. */
  function QuotedCode(msg: string): (code: Option<string>)
    ensures code.Some? <==>
              |msg| >= |NotFoundPrefix| + |NotFoundSuffix|
              && msg[..|NotFoundPrefix|] == NotFoundPrefix
              && msg[|msg| - |NotFoundSuffix|..] == NotFoundSuffix
  {
    if |msg| >= |NotFoundPrefix| + |NotFoundSuffix|
       && msg[..|NotFoundPrefix|] == NotFoundPrefix
       && msg[|msg| - |NotFoundSuffix|..] == NotFoundSuffix
    then Some(msg[|NotFoundPrefix|..|msg| - |NotFoundSuffix|])
    else None
  }

  /** The not-found message names the queried code and nothing else: the
      code is recovered from it, so distinct codes give distinct messages. */
  lemma NotFoundMessageRoundTrip(code: string)
    ensures QuotedCode(NotFoundMessage(code)) == Some(code)
  {
  }

  /** One lookup of the given code; a read error propagates unchanged, a
      missing row is a NotFoundError, and a found entity is returned as is. */
  function Execute(repo: Repository, code: string): (r: GetOutcome)
    ensures r.lookups == [code]
    ensures repo.readFault.Some? ==> r.result == Err(repo.readFault.value)
    ensures repo.readFault.None? && code !in repo.rows ==>
              r.result == Err(NotFound(NotFoundMessage(code)))
    ensures repo.readFault.None? && code in repo.rows ==>
              r.result == Ok(repo.rows[code])
    ensures r.result.Ok? <==> repo.readFault.None? && code in repo.rows
  {
    var found := FindByShortCode(repo, code);
    var result :=
      match found
      case Err(e) => Err(e)
      case Ok(None) => Err(NotFound(NotFoundMessage(code)))
      case Ok(Some(url)) => Ok(url);
    GetOutcome(result, [code])
  }

  /** In a consistent store the entity returned for a code carries that very
      code and a valid long URL. */
  lemma FoundEntityMatchesCode(repo: Repository, code: string)
    requires Consistent(repo)
    requires Execute(repo, code).result.Ok?
    ensures Execute(repo, code).result.value.shortCode == code
    ensures Valid(Execute(repo, code).result.value)
  {
  }
}

=== FILE: response_dto.dfy ===
/** `toShortenUrlResponseDto`: the view the shorten operation returns,
    with the short URL built from the configured base URL. */
module ShortenUrlResponse {
  import opened Errors
  import opened UrlEntity

  datatype ShortenUrlResponseDto = ShortenUrlResponseDto(
    shortCode: string,
    shortUrl: string,
    longUrl: string)

  /** The base URL used when `BASE_URL` is not configured. */
  const DefaultBaseUrl := "http://localhost:3000"

  /** `process.env.BASE_URL || 'http://localhost:3000'`: `||` treats both
      an unset variable and the empty string as absent. */
  function BaseUrl(configured: Option<string>): (base: string)
    ensures base != ""
    ensures configured.Some? && configured.value != "" ==> base == configured.value
    ensures configured.None? || configured.value == "" ==> base == DefaultBaseUrl
  {
    if configured.Some? && configured.value != "" then configured.value else DefaultBaseUrl
  }

  /** The response view of an entity: its short code and long URL, and the
      short URL `<base>/<shortCode>`. */
  function ToResponse(url: Url, configured: Option<string>): (r: ShortenUrlResponseDto)
    ensures r.shortCode == url.shortCode
    ensures r.longUrl == url.longUrl
    ensures r.shortUrl == BaseUrl(configured) + "/" + url.shortCode
  {
    ShortenUrlResponseDto(url.shortCode, BaseUrl(configured) + "/" + url.shortCode, url.longUrl)
  }

  /** The text after the last '/' of a URL: the path segment a
      `/:shortCode` route binds. */
  function LastSegment(s: string): (seg: string)
    ensures |seg| <= |s| && seg == s[|s| - |seg|..]
    ensures '/' !in seg
    ensures |seg| < |s| ==> s[|s| - |seg| - 1] == '/'
  {
    if |s| == 0 || s[|s| - 1] == '/' then ""
    else LastSegment(s[..|s| - 1]) + [s[|s| - 1]]
  }

  /** The short URL ends with the short code, right after a '/', and starts
      with the base URL. */
  lemma ShortUrlShape(url: Url, configured: Option<string>)
    ensures var r := ToResponse(url, configured);
            var base := BaseUrl(configured);
            && |r.shortUrl| == |base| + 1 + |url.shortCode|
            && r.shortUrl[..|base|] == base
            && r.shortUrl[|base|] == '/'
            && r.shortUrl[|base| + 1..] == url.shortCode
  {
  }

  /** For a short code without '/', which every generated code is, the last
      path segment of the short URL is the short code again: following the
      short URL addresses the entity it was made for. */
  lemma {:induction false} ShortUrlRoundTrip(url: Url, configured: Option<string>)
    requires '/' !in url.shortCode
    ensures LastSegment(ToResponse(url, configured).shortUrl) == url.shortCode
  {
    SegmentAfterSlash(BaseUrl(configured), url.shortCode);
  }

  lemma {:induction false} SegmentAfterSlash(prefix: string, code: string)
    requires '/' !in code
    ensures LastSegment(prefix + "/" + code) == code
    decreases |code|
  {
    var s := prefix + "/" + code;
    if code == [] {
      assert s[|s| - 1] == '/';
    } else {
      var last := code[|code| - 1];
      var init := code[..|code| - 1];
      assert s[..|s| - 1] == prefix + "/" + init;
      assert s[|s| - 1] == last;
      SegmentAfterSlash(prefix, init);
      assert init + [last] == code;
    }
  }
}

=== FILE: short_code.dfy ===
/** `generateShortCode`: a string of the requested length drawn from the
    62-character base62 alphabet. The random draws
    `Math.floor(Math.random() * 62)` are supplied as a sequence of indices. */
module ShortCode {

  /** The generator's alphabet, in the source's order: the lower-case
      letters, then the upper-case letters, then the digits. */
  const Characters: string := Lowers + Uppers + Digits

  const Lowers: string := "abcdefghijklmnopqrstuvwxyz"
  const Uppers: string := "ABCDEFGHIJKLMNOPQRSTUVWXYZ"
  const Digits: string := "0123456789"

  /** The alphabet's size, `characters.length`. */
  const AlphabetSize := 62

  /** The length used when the caller passes none. */
  const DefaultLength := 6

  /** One random draw: `Math.random()` lies in [0, 1), so the floored
      product is an index in [0, 62). */
  type CharIndex = i: int | 0 <= i < AlphabetSize

  /** Base62 characters: a-z, A-Z and 0-9. */
  predicate IsBase62(c: char) {
    ('a' <= c <= 'z') || ('A' <= c <= 'Z') || ('0' <= c <= '9')
  }

  /** A string made of base62 characters only. */
  predicate IsBase62String(s: string) {
    forall i :: 0 <= i < |s| ==> IsBase62(s[i])
  }

  /** The position of a base62 character in the alphabet. */
  function IndexOf(c: char): (i: CharIndex)
    requires IsBase62(c)
  {
    if 'a' <= c <= 'z' then c as int - 'a' as int
    else if 'A' <= c <= 'Z' then 26 + (c as int - 'A' as int)
    else 52 + (c as int - '0' as int)
  }

  /** Each run of the alphabet counts up from its first character. */
  lemma RunsAscend()
    ensures |Lowers| == 26 && forall k :: 0 <= k < 26 ==> Lowers[k] as int == 'a' as int + k
    ensures |Uppers| == 26 && forall k :: 0 <= k < 26 ==> Uppers[k] as int == 'A' as int + k
    ensures |Digits| == 10 && forall k :: 0 <= k < 10 ==> Digits[k] as int == '0' as int + k
  {
  }

  /** The alphabet has 62 entries, each a base62 character, and the
      alphabet lists them in order: the character at index i is the one
      whose position is i. */
  lemma AlphabetWellFormed()
    ensures |Characters| == AlphabetSize
    ensures forall i :: 0 <= i < |Characters| ==>
              IsBase62(Characters[i]) && IndexOf(Characters[i]) == i
  {
    RunsAscend();
    forall i | 0 <= i < |Characters|
      ensures IsBase62(Characters[i]) && IndexOf(Characters[i]) == i
    {
      if i < 26 {
        assert Characters[i] == Lowers[i];
      } else if i < 52 {
        assert Characters[i] == Uppers[i - 26];
      } else {
        assert Characters[i] == Digits[i - 52];
      }
    }
  }

  /** Every base62 character occurs in the alphabet exactly at its position. */
  lemma AlphabetCoversBase62()
    ensures forall c :: IsBase62(c) ==> Characters[IndexOf(c)] == c
  {
    AlphabetWellFormed();
    forall c | IsBase62(c)
      ensures Characters[IndexOf(c)] == c
    {
      var i := IndexOf(c);
      assert IndexOf(Characters[i]) == i;
    }
  }

  /** The 62 characters are pairwise distinct, so distinct draws select
      distinct characters. */
  lemma AlphabetDistinct(i: CharIndex, j: CharIndex)
    ensures Characters[i] == Characters[j] <==> i == j
  {
    AlphabetWellFormed();
    assert IndexOf(Characters[i]) == i;
    assert IndexOf(Characters[j]) == j;
  }

  /** `generateShortCode(length)` with the loop's draws supplied: iteration
      i appends `Characters[draws[i]]`, so the first `length` draws are
      consumed in order; a length of zero or less runs no iteration and
      yields the empty string. */
  function Generate(length: int, draws: seq<CharIndex>): (code: string)
    requires length <= |draws|
    ensures |code| == if length <= 0 then 0 else length
    ensures forall i :: 0 <= i < |code| ==> code[i] == Characters[draws[i]]
    ensures IsBase62String(code)
  {
    AlphabetWellFormed();
    if length <= 0 then "" else Generate(length - 1, draws) + [Characters[draws[length - 1]]]
  }

  /** `generateShortCode()` with the default length. */
  function GenerateDefault(draws: seq<CharIndex>): (code: string)
    requires DefaultLength <= |draws|
    ensures |code| == 6 && IsBase62String(code)
    ensures forall i :: 0 <= i < |code| ==> code[i] == Characters[draws[i]]
  {
    Generate(DefaultLength, draws)
  }

  /** A base62 string holds no '/', so it is a single URL path segment. */
  lemma Base62HasNoSlash(s: string)
    requires IsBase62String(s)
    ensures '/' !in s
  {
  }

  /** Reads a base62 string back as the draws that spell it. */
  function Decode(code: string): (draws: seq<CharIndex>)
    requires IsBase62String(code)
    ensures |draws| == |code|
    ensures forall i :: 0 <= i < |code| ==> Characters[draws[i]] == code[i]
  {
    AlphabetCoversBase62();
    seq(|code|, i requires 0 <= i < |code| => IndexOf(code[i]))
  }

  /** The generated code determines the draws it was built from. */
  lemma DecodeGenerate(length: nat, draws: seq<CharIndex>)
    requires length <= |draws|
    ensures Decode(Generate(length, draws)) == draws[..length]
  {
    AlphabetWellFormed();
    var code := Generate(length, draws);
    forall i | 0 <= i < length
      ensures Decode(code)[i] == draws[i]
    {
      assert IndexOf(Characters[draws[i]]) == draws[i];
    }
  }

  /** Every base62 string is an output of the generator: the draws decoded
      from it regenerate it. */
  lemma GenerateDecode(code: string)
    requires IsBase62String(code)
    ensures Generate(|code|, Decode(code)) == code
  {
  }

  /** Distinct draws give distinct codes: two runs of the same length
      agree exactly when their draws agree. */
  lemma GenerateInjective(length: nat, a: seq<CharIndex>, b: seq<CharIndex>)
    requires length <= |a| && length <= |b|
    ensures Generate(length, a) == Generate(length, b) <==> a[..length] == b[..length]
  {
    DecodeGenerate(length, a);
    DecodeGenerate(length, b);
    if a[..length] == b[..length] {
      assert Generate(length, a) == Generate(length, b) by {
        forall i | 0 <= i < length
          ensures Generate(length, a)[i] == Generate(length, b)[i]
        {
          assert a[i] == a[..length][i];
          assert b[i] == b[..length][i];
        }
      }
    }
  }
}

=== FILE: shorten_url.dfy ===
/** `ShortenUrlUseCase.execute`: validates the long URL, allocates a short
    code that is free in the store with a bounded retry loop, persists the
    new entity and returns its response view.

    The operation's collaborators are parameters: the URL check (zod's
    `.url()`) is `isUrl`, the generator's random draws are the stream
    `rng` (attempt k consumes draws 6k .. 6k+5), `new Date()` is `now`,
    the identifier and time the store assigns are `stamp`, and the
    `BASE_URL` setting is `baseUrl`. */
module ShortenUrl {
  import opened Errors
  import opened Text
  import opened UrlEntity
  import opened UrlRepository
  import opened ShortCode
  import opened ShortenUrlResponse

  /** `maxAttempts`. */
  const MaxAttempts := 10

  /** The length every candidate is generated with. */
  const CodeLength := 6

  /** The message zod's `.url()` check fails with. */
  const InvalidUrlMessage := "Must be a valid URL"

  /** The message thrown when the attempts run out. */
  const ExhaustedMessage := "Failed to generate unique short code. Please try again."

  /** The operation's input, `ShortenUrlDto`. */
  datatype ShortenUrlDto = ShortenUrlDto(longUrl: string)

  /** What the retry loop ends with: the winning code or the error thrown,
      and the codes it passed to `findByShortCode`, in call order. */
  datatype Allocation = Allocation(code: Result<string>, lookups: seq<string>)

  /** What the operation ends with: its result, the store afterwards, the
      codes passed to `findByShortCode` and the entities passed to `create`,
      each in call order. */
  datatype ShortenOutcome = ShortenOutcome(
    result: Result<ShortenUrlResponseDto>,
    repo: Repository,
    lookups: seq<string>,
    created: seq<Url>)

  /** The stream holds the draws of every attempt the loop can make. */
  predicate EnoughDraws(rng: seq<CharIndex>) {
    |rng| >= MaxAttempts * CodeLength
  }

  /** The code `generateShortCode(6)` returns on the attempt with index k
      (the first attempt has index 0): the draws 6k .. 6k+5 of the stream. */
  function Candidate(rng: seq<CharIndex>, k: nat): (code: string)
    requires k < MaxAttempts && EnoughDraws(rng)
    ensures |code| == CodeLength && IsBase62String(code)
  {
    var start := k * CodeLength;
    assert start + CodeLength <= MaxAttempts * CodeLength;
    Generate(CodeLength, rng[start..])
  }

  /** The candidate of every attempt the loop can make, in attempt order.
      Generation is pure, so producing them up front yields the very codes
      the loop produces one pass at a time. */
  function Candidates(rng: seq<CharIndex>): (codes: seq<string>)
    requires EnoughDraws(rng)
    ensures |codes| == MaxAttempts
    ensures forall k :: 0 <= k < MaxAttempts ==> codes[k] == Candidate(rng, k)
  {
    seq(MaxAttempts, k requires 0 <= k < MaxAttempts => Candidate(rng, k))
  }

  /** The do/while loop over the candidates `codes`, entered with `attempts`
      passes already made. Each pass takes the next candidate, looks it up
      and counts the attempt; the attempt limit is checked before the
      lookup's answer, so the pass that reaches the limit throws even when
      its candidate is free. */
  function Allocate(repo: Repository, codes: seq<string>, attempts: nat): (r: Allocation)
    requires attempts < MaxAttempts <= |codes|
    ensures 1 <= |r.lookups| <= MaxAttempts - attempts
    ensures r.lookups == codes[attempts..attempts + |r.lookups|]
    ensures forall i :: 0 <= i < |r.lookups| - 1 ==> r.lookups[i] in repo.rows
    ensures repo.readFault.Some? ==>
              r == Allocation(Err(repo.readFault.value), [codes[attempts]])
    ensures r.code.Ok? <==>
              && repo.readFault.None?
              && r.lookups[|r.lookups| - 1] !in repo.rows
              && attempts + |r.lookups| < MaxAttempts
    ensures r.code.Ok? ==> r.code.value == r.lookups[|r.lookups| - 1]
    ensures repo.readFault.None? && r.code.Err? ==>
              r.code.error == Validation(ExhaustedMessage) && attempts + |r.lookups| == MaxAttempts
    decreases MaxAttempts - attempts
  {
    var code := codes[attempts];
    match FindByShortCode(repo, code)
    case Err(e) => Allocation(Err(e), [code])
    case Ok(existing) =>
      if attempts + 1 >= MaxAttempts then Allocation(Err(Validation(ExhaustedMessage)), [code])
      else if existing.None? then Allocation(Ok(code), [code])
      else
        var rest := Allocate(repo, codes, attempts + 1);
        Allocation(rest.code, [code] + rest.lookups)
  }

  /** `execute`: validation, the retry loop, `Url.create('', code, longUrl,
      now)`, `create`, and the response view of the entity `create`
      returned. Every error is thrown at the step that raises it, so later
      steps do not run and the store is left as it was. */
  function Execute(dto: ShortenUrlDto, isUrl: string -> bool, repo: Repository,
                   rng: seq<CharIndex>, now: Timestamp, stamp: RowStamp,
                   baseUrl: Option<string>): (r: ShortenOutcome)
    requires EnoughDraws(rng)
    ensures !isUrl(dto.longUrl) ==>
              r == ShortenOutcome(Err(Validation(InvalidUrlMessage)), repo, [], [])
    ensures |r.lookups| <= MaxAttempts
    ensures r.lookups == Candidates(rng)[..|r.lookups|]
    ensures r.result.Err? ==> r.repo == repo
    ensures |r.created| <= 1
    ensures r.created != [] ==>
              && |r.lookups| >= 1
              && r.created[0] == Url("", r.lookups[|r.lookups| - 1], dto.longUrl, now)
    ensures r.result.Err? && r.created != [] ==>
              repo.writeFault.Some? && r.result.error == repo.writeFault.value
    ensures r.result.Ok? ==>
              |r.lookups| >= 1 &&
              var code := r.lookups[|r.lookups| - 1];
              var stored := Url(stamp.id, code, dto.longUrl, stamp.createdAt);
              && |r.created| == 1
              && repo.readFault.None? && repo.writeFault.None?
              && code !in repo.rows
              && Valid(stored)
              && r.repo == repo.(rows := repo.rows[code := stored])
              && r.result.value == ToResponse(stored, baseUrl)
  {
    if !isUrl(dto.longUrl) then
      ShortenOutcome(Err(Validation(InvalidUrlMessage)), repo, [], [])
    else
      var allocation := Allocate(repo, Candidates(rng), 0);
      match allocation.code
      case Err(e) => ShortenOutcome(Err(e), repo, allocation.lookups, [])
      case Ok(code) => Persist(repo, code, dto.longUrl, allocation.lookups, now, stamp, baseUrl)
  }

  /** The steps after the loop: `Url.create('', code, longUrl, now)`, then
      `create`, then the response view of the entity `create` returned.
      `lookups` are the loop's calls, carried into the outcome. */
  function Persist(repo: Repository, code: string, longUrl: string, lookups: seq<string>,
                   now: Timestamp, stamp: RowStamp, baseUrl: Option<string>): (r: ShortenOutcome)
    ensures r.lookups == lookups
    ensures r.created == [] <==> AllWhitespace(code) || AllWhitespace(longUrl)
    ensures r.created == [] ==>
              r.result == Err(Validation(
                if AllWhitespace(code) then ShortCodeRequired else LongUrlRequired))
    ensures r.created != [] ==> r.created == [Url("", code, longUrl, now)]
    ensures r.result.Err? ==> r.repo == repo
    ensures r.result.Err? && r.created != [] ==>
              || (repo.writeFault.Some? && r.result.error == repo.writeFault.value)
              || (repo.writeFault.None? && code in repo.rows
                  && r.result.error == Database(CreateFailed))
    ensures r.result.Ok? <==>
              !AllWhitespace(code) && !AllWhitespace(longUrl)
              && repo.writeFault.None? && code !in repo.rows
    ensures r.result.Ok? ==>
              var stored := Url(stamp.id, code, longUrl, stamp.createdAt);
              && Valid(stored)
              && r.repo == repo.(rows := repo.rows[code := stored])
              && r.result.value == ToResponse(stored, baseUrl)
  {
    match UrlEntity.Create("", code, longUrl, now)
    case Err(e) => ShortenOutcome(Err(e), repo, lookups, [])
    case Ok(url) =>
      match UrlRepository.Create(repo, url, stamp)
      case Err(e) => ShortenOutcome(Err(e), repo, lookups, [url])
      case Ok((repo', createdUrl)) =>
        ShortenOutcome(Ok(ToResponse(createdUrl, baseUrl)), repo', lookups, [url])
  }

  /** The steps after the loop keep a consistent store consistent: the one
      row they may add is valid and filed under its own short code. */
  lemma PersistPreservesConsistency(repo: Repository, code: string, longUrl: string,
                                    lookups: seq<string>, now: Timestamp, stamp: RowStamp,
                                    baseUrl: Option<string>)
    requires Consistent(repo)
    ensures Consistent(Persist(repo, code, longUrl, lookups, now, stamp, baseUrl).repo)
  {
    var r := Persist(repo, code, longUrl, lookups, now, stamp, baseUrl);
    if r.result.Ok? {
      InsertPreservesConsistency(repo, Url(stamp.id, code, longUrl, stamp.createdAt), r.repo);
    }
  }

  /** Shortening keeps a consistent store consistent, whatever the outcome. */
  lemma ExecutePreservesConsistency(dto: ShortenUrlDto, isUrl: string -> bool, repo: Repository,
                                    rng: seq<CharIndex>, now: Timestamp, stamp: RowStamp,
                                    baseUrl: Option<string>)
    requires EnoughDraws(rng) && Consistent(repo)
    ensures Consistent(Execute(dto, isUrl, repo, rng, now, stamp, baseUrl).repo)
  {
    if isUrl(dto.longUrl) {
      var allocation := Allocate(repo, Candidates(rng), 0);
      if allocation.code.Ok? {
        PersistPreservesConsistency(repo, allocation.code.value, dto.longUrl,
                                    allocation.lookups, now, stamp, baseUrl);
      }
    }
  }

  /** The candidate with index w is the first one missing from the store. */
  predicate FirstFree(repo: Repository, codes: seq<string>, w: nat)
    requires w < |codes|
  {
    && codes[w] !in repo.rows
    && forall j :: 0 <= j < w ==> codes[j] in repo.rows
  }

  /** A non-empty slice is its first element followed by the rest. */
  lemma SliceSplitsHead(s: seq<string>, i: nat, j: nat)
    requires i < j <= |s|
    ensures s[i..j] == [s[i]] + s[i + 1..j]
  {
  }

  /** A pass whose candidate collides, before the last attempt, looks that
      candidate up and hands over to the next pass. */
  lemma CollisionRetries(repo: Repository, codes: seq<string>, attempts: nat)
    requires attempts + 1 < MaxAttempts <= |codes| && repo.readFault.None?
    requires codes[attempts] in repo.rows
    ensures var rest := Allocate(repo, codes, attempts + 1);
            Allocate(repo, codes, attempts) == Allocation(rest.code, [codes[attempts]] + rest.lookups)
  {
  }

  /** A pass whose candidate is free, before the last attempt, ends the loop
      with that candidate after its one lookup. */
  lemma FreeCandidateSettles(repo: Repository, codes: seq<string>, attempts: nat)
    requires attempts + 1 < MaxAttempts <= |codes| && repo.readFault.None?
    requires codes[attempts] !in repo.rows
    ensures Allocate(repo, codes, attempts) ==
              Allocation(Ok(codes[attempts]), codes[attempts..attempts + 1])
  {
    assert codes[attempts..attempts + 1] == [codes[attempts]];
  }

  /** With a readable store, the loop entered after `start` passes settles
      on the first free candidate from `start` on, provided it comes before
      the last attempt, and looks up exactly the candidates up to it. */
  lemma {:induction false} SettlesOnFirstFree(repo: Repository, codes: seq<string>,
                                              start: nat, w: nat)
    requires MaxAttempts <= |codes| && repo.readFault.None?
    requires start <= w < MaxAttempts - 1
    requires codes[w] !in repo.rows
    requires forall j :: start <= j < w ==> codes[j] in repo.rows
    ensures Allocate(repo, codes, start) == Allocation(Ok(codes[w]), codes[start..w + 1])
    decreases w - start
  {
    if start < w {
      SettlesOnFirstFree(repo, codes, start + 1, w);
      CollisionRetries(repo, codes, start);
      SliceSplitsHead(codes, start, w + 1);
    } else {
      FreeCandidateSettles(repo, codes, start);
    }
  }

  /** With a readable store in which every candidate from `start` up to the
      last attempt (excluded) is taken, the loop throws the exhaustion error
      once the last attempt has been looked up. */
  lemma {:induction false} ExhaustsFrom(repo: Repository, codes: seq<string>, start: nat)
    requires MaxAttempts <= |codes| && repo.readFault.None?
    requires start < MaxAttempts
    requires forall j :: start <= j < MaxAttempts - 1 ==> codes[j] in repo.rows
    ensures Allocate(repo, codes, start) ==
              Allocation(Err(Validation(ExhaustedMessage)), codes[start..MaxAttempts])
    decreases MaxAttempts - start
  {
    if start < MaxAttempts - 1 {
      ExhaustsFrom(repo, codes, start + 1);
      CollisionRetries(repo, codes, start);
      SliceSplitsHead(codes, start, MaxAttempts);
    }
  }

  /** With a readable store, the loop settles on the first free candidate
      when it comes among the first nine attempts, after exactly as many
      lookups as that candidate's position. */
  lemma FirstFreeCandidateWins(repo: Repository, codes: seq<string>, w: nat)
    requires MaxAttempts <= |codes| && repo.readFault.None?
    requires w < MaxAttempts - 1 && FirstFree(repo, codes, w)
    ensures Allocate(repo, codes, 0) == Allocation(Ok(codes[w]), codes[..w + 1])
  {
    SettlesOnFirstFree(repo, codes, 0, w);
  }

  /** With a readable store in which the first nine candidates are all
      taken, the loop throws the exhaustion error after exactly ten lookups,
      whether or not the tenth candidate is free. */
  lemma NineCollisionsExhaust(repo: Repository, codes: seq<string>)
    requires MaxAttempts <= |codes| && repo.readFault.None?
    requires forall j :: 0 <= j < MaxAttempts - 1 ==> codes[j] in repo.rows
    ensures Allocate(repo, codes, 0) ==
              Allocation(Err(Validation(ExhaustedMessage)), codes[..MaxAttempts])
  {
    ExhaustsFrom(repo, codes, 0);
  }

  /** A generated candidate never trips the entity's short-code check: its
      characters are letters and digits, none of them whitespace. */
  lemma CandidateNotBlank(rng: seq<CharIndex>, k: nat)
    requires k < MaxAttempts && EnoughDraws(rng)
    ensures !AllWhitespace(Candidate(rng, k))
  {
    var code := Candidate(rng, k);
    assert IsBase62(code[0]);
  }

  /** An invalid long URL is rejected before anything else runs: no lookup,
      no `create`, the store unchanged. */
  lemma InvalidUrlTouchesNothing(dto: ShortenUrlDto, isUrl: string -> bool, repo: Repository,
                                 rng: seq<CharIndex>, now: Timestamp, stamp: RowStamp,
                                 baseUrl: Option<string>)
    requires EnoughDraws(rng) && !isUrl(dto.longUrl)
    ensures var r := Execute(dto, isUrl, repo, rng, now, stamp, baseUrl);
            && r.result == Err(Validation(InvalidUrlMessage))
            && r.lookups == [] && r.created == [] && r.repo == repo
  {
  }

  /** A store whose reads fail makes the operation fail with that very
      error at the first lookup, before any `create`. */
  lemma ReadFaultPropagates(dto: ShortenUrlDto, isUrl: string -> bool, repo: Repository,
                            rng: seq<CharIndex>, now: Timestamp, stamp: RowStamp,
                            baseUrl: Option<string>)
    requires EnoughDraws(rng) && isUrl(dto.longUrl) && repo.readFault.Some?
    ensures Execute(dto, isUrl, repo, rng, now, stamp, baseUrl) ==
              ShortenOutcome(Err(repo.readFault.value), repo, [Candidate(rng, 0)], [])
  {
  }

  /** The operation, given a valid, non-blank long URL and a working store,
      uses the first candidate that is free, provided it is one of the first
      nine: it performs exactly that many lookups, calls `create` once with
      the entity ('', candidate, long URL, now), and returns the view of the
      stored row. */
  lemma FirstFreeCandidateIsStored(dto: ShortenUrlDto, isUrl: string -> bool,
                                   repo: Repository, rng: seq<CharIndex>, now: Timestamp,
                                   stamp: RowStamp, baseUrl: Option<string>, w: nat)
    requires EnoughDraws(rng) && isUrl(dto.longUrl) && !AllWhitespace(dto.longUrl)
    requires repo.readFault.None? && repo.writeFault.None?
    requires w < MaxAttempts - 1 && FirstFree(repo, Candidates(rng), w)
    ensures var r := Execute(dto, isUrl, repo, rng, now, stamp, baseUrl);
            var code := Candidate(rng, w);
            var stored := Url(stamp.id, code, dto.longUrl, stamp.createdAt);
            && r.result == Ok(ToResponse(stored, baseUrl))
            && r.result.value.shortCode == code
            && r.lookups == Candidates(rng)[..w + 1]
            && r.created == [Url("", code, dto.longUrl, now)]
            && r.repo == repo.(rows := repo.rows[code := stored])
  {
    FirstFreeCandidateWins(repo, Candidates(rng), w);
    CandidateNotBlank(rng, w);
  }

  /** When the first nine candidates are all taken, the operation fails
      with the exhaustion error after exactly ten lookups and never calls
      `create`, even if the tenth candidate is free. */
  lemma NineCollisionsFail(dto: ShortenUrlDto, isUrl: string -> bool, repo: Repository,
                           rng: seq<CharIndex>, now: Timestamp, stamp: RowStamp,
                           baseUrl: Option<string>)
    requires EnoughDraws(rng) && isUrl(dto.longUrl) && repo.readFault.None?
    requires forall j :: 0 <= j < MaxAttempts - 1 ==> Candidate(rng, j) in repo.rows
    ensures Execute(dto, isUrl, repo, rng, now, stamp, baseUrl) ==
              ShortenOutcome(Err(Validation(ExhaustedMessage)), repo, Candidates(rng), [])
  {
    NineCollisionsExhaust(repo, Candidates(rng));
    assert Candidates(rng)[..MaxAttempts] == Candidates(rng);
  }

  /** A successful shortening implies every condition for success: the long
      URL passes both checks, the store reads and writes, and the stored
      code is one of the first nine candidates and was free. */
  lemma SuccessNeedsFreeCandidate(dto: ShortenUrlDto, isUrl: string -> bool, repo: Repository,
                                  rng: seq<CharIndex>, now: Timestamp, stamp: RowStamp,
                                  baseUrl: Option<string>)
    requires EnoughDraws(rng)
    ensures Execute(dto, isUrl, repo, rng, now, stamp, baseUrl).result.Ok? ==>
              && isUrl(dto.longUrl) && !AllWhitespace(dto.longUrl)
              && repo.readFault.None? && repo.writeFault.None?
              && exists w :: 0 <= w < MaxAttempts - 1 && Candidate(rng, w) !in repo.rows
  {
    var r := Execute(dto, isUrl, repo, rng, now, stamp, baseUrl);
    if r.result.Ok? {
      var n := |r.lookups|;
      assert r.lookups[n - 1] == Candidate(rng, n - 1);
    }
  }

  /** Conversely, when every condition holds the operation succeeds: the
      loop finds a free candidate before its last attempt, and that
      candidate is never blank. */
  lemma FreeCandidateSucceeds(dto: ShortenUrlDto, isUrl: string -> bool, repo: Repository,
                              rng: seq<CharIndex>, now: Timestamp, stamp: RowStamp,
                              baseUrl: Option<string>)
    requires EnoughDraws(rng)
    requires isUrl(dto.longUrl) && !AllWhitespace(dto.longUrl)
    requires repo.readFault.None? && repo.writeFault.None?
    requires exists w :: 0 <= w < MaxAttempts - 1 && Candidate(rng, w) !in repo.rows
    ensures Execute(dto, isUrl, repo, rng, now, stamp, baseUrl).result.Ok?
  {
    var a := Allocate(repo, Candidates(rng), 0);
    if a.code.Ok? {
      CandidateNotBlank(rng, |a.lookups| - 1);
    } else {
      // The loop ran out: every candidate before the last one was taken.
      forall j | 0 <= j < MaxAttempts - 1
        ensures Candidate(rng, j) in repo.rows
      {
        assert a.lookups[j] == Candidate(rng, j);
      }
    }
  }

  /** The operation succeeds exactly when the long URL passes the URL check
      and is not blank, the store reads and writes, and one of the first
      nine candidates is free. */
  lemma SucceedsIff(dto: ShortenUrlDto, isUrl: string -> bool, repo: Repository,
                    rng: seq<CharIndex>, now: Timestamp, stamp: RowStamp,
                    baseUrl: Option<string>)
    requires EnoughDraws(rng)
    ensures Execute(dto, isUrl, repo, rng, now, stamp, baseUrl).result.Ok? <==>
              && isUrl(dto.longUrl) && !AllWhitespace(dto.longUrl)
              && repo.readFault.None? && repo.writeFault.None?
              && exists w :: 0 <= w < MaxAttempts - 1 && Candidate(rng, w) !in repo.rows
  {
    if Execute(dto, isUrl, repo, rng, now, stamp, baseUrl).result.Ok? {
      SuccessNeedsFreeCandidate(dto, isUrl, repo, rng, now, stamp, baseUrl);
    } else if && isUrl(dto.longUrl) && !AllWhitespace(dto.longUrl)
              && repo.readFault.None? && repo.writeFault.None?
              && exists w :: 0 <= w < MaxAttempts - 1 && Candidate(rng, w) !in repo.rows
    {
      FreeCandidateSucceeds(dto, isUrl, repo, rng, now, stamp, baseUrl);
    }
  }
}

=== FILE: text.dfy ===
/** JavaScript's `String.prototype.trim` over strings of characters, and
    the "blank" test the entity's validation builds on it. */
module Text {

  /** The characters `trim` removes: ECMAScript WhiteSpace (tab, vertical
      tab, form feed, space, no-break space, byte-order mark and the Unicode
      space separators) and LineTerminator (line feed, carriage return,
      line and paragraph separators). */
  predicate IsWhitespace(c: char) {
    var n := c as int;
    || n == 0x09 || n == 0x0A || n == 0x0B || n == 0x0C || n == 0x0D
    || n == 0x20 || n == 0xA0 || n == 0x1680
    || (0x2000 <= n <= 0x200A)
    || n == 0x2028 || n == 0x2029 || n == 0x202F || n == 0x205F
    || n == 0x3000 || n == 0xFEFF
  }

  /** Every character of `s` is whitespace (the empty string included). */
  predicate AllWhitespace(s: string) {
    forall i :: 0 <= i < |s| ==> IsWhitespace(s[i])
  }

  /** `s` without its leading whitespace. */
  function TrimStart(s: string): (r: string)
    ensures |r| <= |s| && r == s[|s| - |r|..]
    ensures AllWhitespace(s[..|s| - |r|])
    ensures r == [] || !IsWhitespace(r[0])
  {
    if |s| > 0 && IsWhitespace(s[0]) then
      var t := TrimStart(s[1..]);
      assert forall i :: 0 < i < |s| - |t| ==> s[i] == s[1..][..|s| - 1 - |t|][i - 1];
      t
    else s
  }

  /** `s` without its trailing whitespace. */
  function TrimEnd(s: string): (r: string)
    ensures |r| <= |s| && r == s[..|r|]
    ensures AllWhitespace(s[|r|..])
    ensures r == [] || !IsWhitespace(r[|r| - 1])
  {
    if |s| > 0 && IsWhitespace(s[|s| - 1]) then TrimEnd(s[..|s| - 1]) else s
  }

  /** Cutting the suffix of `s` that starts at `k` at offset `n` gives the
      slices of `s` itself at `k + n`. */
  lemma SuffixSlices(s: string, k: nat, n: nat)
    requires k + n <= |s|
    ensures s[k..][..n] == s[k..k + n]
    ensures s[k..][n..] == s[k + n..]
  {
  }

  /** `s.trim()`: leading and trailing whitespace removed, inner text kept.
      The result is the slice of `s` between a whitespace-only prefix and a
      whitespace-only suffix, and it begins and ends with a non-whitespace
      character; together these fix the result uniquely. */
  function Trim(s: string): (r: string)
    ensures exists i, j :: 0 <= i <= j <= |s| && r == s[i..j]
              && AllWhitespace(s[..i]) && AllWhitespace(s[j..])
    ensures r == [] || (!IsWhitespace(r[0]) && !IsWhitespace(r[|r| - 1]))
  {
    var t := TrimStart(s);
    var u := TrimEnd(t);
    SuffixSlices(s, |s| - |t|, |u|);
    u
  }

  /** `!s.trim()`: the trimmed string is the (falsy) empty string, which
      happens exactly when every character is whitespace. */
  predicate IsBlank(s: string): (b: bool)
    ensures b <==> AllWhitespace(s)
  {
    BlankIffAllWhitespace(s);
    Trim(s) == ""
  }

  /** A string trims to the empty string exactly when it consists of
      whitespace only. */
  lemma {:induction false} BlankIffAllWhitespace(s: string)
    ensures Trim(s) == "" <==> AllWhitespace(s)
  {
    var t := TrimStart(s);
    var k := |s| - |t|;
    if !AllWhitespace(s) {
      var i :| 0 <= i < |s| && !IsWhitespace(s[i]);
      // The leading trim stops at or before i and the trailing trim
      // cannot remove a non-whitespace character either.
      assert t[i - k] == s[i];
    }
  }
}

=== FILE: url_entity.dfy ===
/** The Url entity: the one stored mapping from a short code to a long URL,
    validated when it is constructed and immutable afterwards. */
module UrlEntity {
  import opened Errors
  import opened Text

  /** A JavaScript `Date`, kept opaque as milliseconds since the epoch. */
  datatype Timestamp = Timestamp(epochMillis: int)

  /** An entity. The fields of a datatype value cannot be reassigned, which
      is the source's `readonly`. */
  datatype Url = Url(id: string, shortCode: string, longUrl: string, createdAt: Timestamp)

  const ShortCodeRequired := "Short code is required"
  const LongUrlRequired := "Long URL is required"

  /** The entity invariant every successfully constructed Url satisfies:
      both the short code and the long URL hold a non-whitespace character. */
  predicate Valid(u: Url) {
    !AllWhitespace(u.shortCode) && !AllWhitespace(u.longUrl)
  }

  /** The private `validate`: the short code is checked first, then the
      long URL; the identifier and timestamp are not checked at all. */
  function Validate(shortCode: string, longUrl: string): (r: Option<AppError>)
    ensures r.None? <==> !AllWhitespace(shortCode) && !AllWhitespace(longUrl)
    ensures AllWhitespace(shortCode) ==> r == Some(Validation(ShortCodeRequired))
    ensures !AllWhitespace(shortCode) && AllWhitespace(longUrl) ==>
              r == Some(Validation(LongUrlRequired))
  {
    if IsBlank(shortCode) then Some(Validation(ShortCodeRequired))
    else if IsBlank(longUrl) then Some(Validation(LongUrlRequired))
    else None
  }

  /** `Url.create`: builds the entity from its four fields exactly as given
      (nothing is trimmed) or fails with the first validation error. */
  function Create(id: string, shortCode: string, longUrl: string, createdAt: Timestamp)
    : (r: Result<Url>)
    ensures r.Ok? <==> !AllWhitespace(shortCode) && !AllWhitespace(longUrl)
    ensures r.Ok? ==> Valid(r.value)
    ensures r.Ok? ==> r.value == Url(id, shortCode, longUrl, createdAt)
    ensures AllWhitespace(shortCode) ==> r == Err(Validation(ShortCodeRequired))
    ensures !AllWhitespace(shortCode) && AllWhitespace(longUrl) ==>
              r == Err(Validation(LongUrlRequired))
  {
    match Validate(shortCode, longUrl)
    case Some(e) => Err(e)
    case None => Ok(Url(id, shortCode, longUrl, createdAt))
  }

  /** Construction only inspects the short code and the long URL: any
      identifier, the empty placeholder included, and any timestamp give
      the same verdict, and a valid entity is rebuilt from its own fields
      unchanged. */
  lemma CreateIgnoresIdAndTime(id: string, id': string, shortCode: string, longUrl: string,
                               t: Timestamp, t': Timestamp)
    ensures Create(id, shortCode, longUrl, t).Ok? == Create(id', shortCode, longUrl, t').Ok?
    ensures Create(id, shortCode, longUrl, t).Err? ==>
              Create(id, shortCode, longUrl, t) == Create(id', shortCode, longUrl, t')
  {
  }

  /** Every valid entity is reproduced exactly by `Url.create` from its own
      fields: construction neither normalises nor rejects a valid value. */
  lemma CreateRoundTrip(u: Url)
    requires Valid(u)
    ensures Create(u.id, u.shortCode, u.longUrl, u.createdAt) == Ok(u)
  {
  }
}

=== FILE: url_repository.dfy ===
/** The `IUrlRepository` contract, backed by an abstract keyed table: one
    row per short code, the short code being the unique key.

    A store that is failing is described by the error its reads and its
    writes raise; the operations propagate that error unchanged. */
module UrlRepository {
  import opened Errors
  import opened UrlEntity

  /** The table, keyed by short code, and the error (if any) that every
      read or every write currently raises. */
  datatype Repository = Repository(
    rows: map<string, Url>,
    readFault: Option<AppError>,
    writeFault: Option<AppError>)

  /** The identifier and creation time the store assigns to a new row. */
  datatype RowStamp = RowStamp(id: string, createdAt: Timestamp)

  /** The message the store reports when a write is refused. */
  const CreateFailed := "Failed to create URL"

  /** The table's integrity: each row is filed under its own short code and
      holds a valid entity. */
  predicate Consistent(repo: Repository) {
    forall code :: code in repo.rows ==>
      repo.rows[code].shortCode == code && Valid(repo.rows[code])
  }

  /** `findByShortCode`: the row stored under `code`, `None` (the source's
      `null`) when there is none, or the store's read error. */
  function FindByShortCode(repo: Repository, code: string): (r: Result<Option<Url>>)
    ensures repo.readFault.Some? ==> r == Err(repo.readFault.value)
    ensures repo.readFault.None? ==> r.Ok?
    ensures r.Ok? ==> (r.value.Some? <==> code in repo.rows)
    ensures r.Ok? && r.value.Some? ==> r.value.value == repo.rows[code]
  {
    match repo.readFault
    case Some(e) => Err(e)
    case None => Ok(if code in repo.rows then Some(repo.rows[code]) else None)
  }

  /** `create`: inserts the entity under its short code with the
      store-assigned identifier and timestamp and returns the row as
      stored. A write error, or a short code already present (the unique
      constraint), fails and leaves the table as it was. */
  function Create(repo: Repository, url: Url, stamp: RowStamp): (r: Result<(Repository, Url)>)
    ensures r.Ok? <==> repo.writeFault.None? && url.shortCode !in repo.rows
    ensures repo.writeFault.Some? ==> r == Err(repo.writeFault.value)
    ensures repo.writeFault.None? && url.shortCode in repo.rows ==>
              r == Err(Database(CreateFailed))
    ensures r.Ok? ==>
              var (repo', stored) := r.value;
              && stored == Url(stamp.id, url.shortCode, url.longUrl, stamp.createdAt)
              && repo'.rows == repo.rows[url.shortCode := stored]
              && repo'.readFault == repo.readFault && repo'.writeFault == repo.writeFault
  {
    match repo.writeFault
    case Some(e) => Err(e)
    case None =>
      if url.shortCode in repo.rows then Err(Database(CreateFailed))
      else
        var stored := Url(stamp.id, url.shortCode, url.longUrl, stamp.createdAt);
        Ok((repo.(rows := repo.rows[url.shortCode := stored]), stored))
  }

  /** After a successful `create`, looking the new short code up returns
      the stored row, and every other short code reads as before. */
  lemma FindAfterCreate(repo: Repository, url: Url, stamp: RowStamp, code: string)
    requires Create(repo, url, stamp).Ok? && repo.readFault.None?
    ensures var (repo', stored) := Create(repo, url, stamp).value;
            FindByShortCode(repo', code) ==
              if code == url.shortCode then Ok(Some(stored)) else FindByShortCode(repo, code)
  {
  }

  /** Filing a valid entity under its own short code keeps the table
      consistent. */
  lemma InsertPreservesConsistency(repo: Repository, stored: Url, repo': Repository)
    requires Consistent(repo) && Valid(stored)
    requires repo'.rows == repo.rows[stored.shortCode := stored]
    ensures Consistent(repo')
  {
  }
}

=== FILE: url_service.dfy ===
/** Properties that tie the two operations together over one store:
    what the shorten operation writes, the get operation reads back. */
module UrlService {
  import opened Errors
  import opened UrlEntity
  import opened UrlRepository
  import opened ShortCode
  import opened ShortenUrlResponse
  import ShortenUrl
  import GetUrl

  /** Shortening a URL and then fetching the returned short code yields the
      stored entity, whose long URL is the one submitted and whose short code
      is the one returned. */
  lemma ShortenThenGet(dto: ShortenUrl.ShortenUrlDto, isUrl: string -> bool, repo: Repository,
                       rng: seq<CharIndex>, now: Timestamp, stamp: RowStamp,
                       baseUrl: Option<string>)
    requires ShortenUrl.EnoughDraws(rng)
    ensures var r := ShortenUrl.Execute(dto, isUrl, repo, rng, now, stamp, baseUrl);
            r.result.Ok? ==>
            var got := GetUrl.Execute(r.repo, r.result.value.shortCode).result;
            && got.Ok?
            && got.value.longUrl == dto.longUrl
            && got.value.shortCode == r.result.value.shortCode
            && got.value.longUrl == r.result.value.longUrl
  {
  }

  /** Following the returned short URL works: its last path segment is the
      returned short code, and fetching that code redirects to the long URL
      that was submitted. */
  lemma ShortUrlResolves(dto: ShortenUrl.ShortenUrlDto, isUrl: string -> bool, repo: Repository,
                         rng: seq<CharIndex>, now: Timestamp, stamp: RowStamp,
                         baseUrl: Option<string>)
    requires ShortenUrl.EnoughDraws(rng)
    ensures var r := ShortenUrl.Execute(dto, isUrl, repo, rng, now, stamp, baseUrl);
            r.result.Ok? ==>
            var segment := LastSegment(r.result.value.shortUrl);
            && segment == r.result.value.shortCode
            && GetUrl.Execute(r.repo, segment).result.Ok?
            && GetUrl.Execute(r.repo, segment).result.value.longUrl == dto.longUrl
  {
    var r := ShortenUrl.Execute(dto, isUrl, repo, rng, now, stamp, baseUrl);
    if r.result.Ok? {
      var n := |r.lookups|;
      var code := r.lookups[n - 1];
      var stored := Url(stamp.id, code, dto.longUrl, stamp.createdAt);
      assert code == ShortenUrl.Candidate(rng, n - 1);
      Base62HasNoSlash(code);
      ShortUrlRoundTrip(stored, baseUrl);
      ShortenThenGet(dto, isUrl, repo, rng, now, stamp, baseUrl);
    }
  }

  /** Shortening adds one row and changes nothing else: every other short
      code is fetched exactly as before, and a failed shortening changes no
      fetch at all. */
  lemma ShortenLeavesOtherCodes(dto: ShortenUrl.ShortenUrlDto, isUrl: string -> bool,
                                repo: Repository, rng: seq<CharIndex>, now: Timestamp,
                                stamp: RowStamp, baseUrl: Option<string>, other: string)
    requires ShortenUrl.EnoughDraws(rng)
    ensures var r := ShortenUrl.Execute(dto, isUrl, repo, rng, now, stamp, baseUrl);
            (r.result.Err? || other != r.result.value.shortCode) ==>
              GetUrl.Execute(r.repo, other) == GetUrl.Execute(repo, other)
  {
  }
}
